=== FILE: README.md ===
# CocaGame engine in Dafny

CocaGame is a browser puzzle. A few coloured containers are shuffled, and the
player drags them back into sorted colour order. There are three modes:

- `free`: untimed, and every drop recounts the matches.
- `timed`: a countdown from a time limit, and every drop recounts the matches.
- `challenging`: the matches are counted only when the player presses "check",
  and each failed check spends one of a limited number of attempts.

This project models the game engine of the `CocaGame` class as pure Dafny
functions over an immutable session value, and proves what the engine
guarantees:

- which colours a game draws;
- that the target is the sorted rearrangement of those colours;
- that the shuffle is a permutation and can produce every arrangement;
- that a move exchanges exactly two positions;
- how matches are counted and when a game is won;
- how attempts are spent;
- when the clock ends a timed game.

Modules, one per part of the engine:

- `StringOrder`: the comparison `Array.prototype.sort` uses without a
  comparator, on strings. It compares code unit by code unit, and a prefix
  comes first. Proved to be a total order.
- `Sorting`: a sorted rearrangement. The engine's sort algorithm cannot be
  seen; insertion sort stands in for it. `SortedPermutationUnique` shows any
  correct sort gives the same target.
- `Palette`: `generateRandomColors`. It takes a prefix of the ten-colour list
  with the full semantics of `slice(0, count)`, so a negative count counts
  back from the end.
- `Shuffle`: the exchange of two positions, and the Fisher–Yates loop. The
  loop has three forms: a recursive reference, a method whose loop
  invariants carry the proof, and a reachability lemma.
- `Scoring`: the match count of `updateCorrectCount` and `checkOrder`, with a
  set-based reference definition.
- `GameConfig`: the constructor's `config.x || default` defaults and the mode
  strings.
- `Game`: the session state and its handlers: `initializeGame`, `drop`,
  `swapContainers`, `updateCorrectCount`, `checkOrder`, `handleWin`,
  `handleGameOver`, `startTimer`, `stopTimer` and one call of the interval
  callback. Each handler returns the new session and the signals it gave
  the page, in order: counts, attempts, time, win, loss.
- `GameProperties`: properties of several calls in a row.

The model supplies the browser's inputs as parameters:

- `Math.random`: the shuffle takes `picks`, where `picks[i]` is the index
  drawn when the loop is at `i`. Every pick lies in `[0, i]`.
- `Date.now()`: the handlers take `now`, in milliseconds.
- `setInterval`: each interval gets an identifier. The session keeps the set
  of live intervals. The callback (`Tick`) may be called only for a live
  interval.
- The page's container-count selector: `InitializeGame` takes a `selected`
  parameter.

Behaviour of the code worth knowing, which the model keeps:

- The three modes are the strings `"free"`, `"timed"` and `"challenging"`.
  Any other mode string is stored as `Unrecognised`. In such a mode, drops
  never recount and the clock does nothing.
- Starting a game does not reset the attempt counter. After a lost challenge,
  the next game ends at its first failed check (`RestartAfterLossEndsAtFirstMiss`).
- Starting a game does not cancel the running interval. `stopTimer` clears
  only the interval registered last. So pressing start during a game leaves
  an interval running after that game is won or lost
  (`RestartLeavesEarlierTimerRunning`).
- A configured `0` (attempts, time limit, container count) or an empty mode
  string is replaced by the default, because the code uses `||`.
- In `free` and `timed` mode, a drop of two distinct containers counts the
  matches twice: once in `swapContainers` and once in `drop`. A completing
  drop therefore announces the win twice. `Drop` records both.

## Model

| member | source | states |
|---|---|---|
| Palette.GenerateRandomColors | js/script.js:120-123 | the colours are the first `count` palette entries, with `slice` clamping: exactly `count` for 0..10, the whole palette above 10, and `10 + count` (at least 0) for a negative count |
| Palette.GeneratedColorsDistinct | js/script.js:121 | no colour occurs twice in a game, whatever the count |
| StringOrder.LeIsCodeUnitOrder | js/script.js:98 | the default sort order puts `a` first exactly when `a` is a prefix of `b` or has the smaller code unit at the first position where they differ |
| StringOrder.LeTotal | js/script.js:98 | any two colour names are comparable |
| StringOrder.LeTransitive | js/script.js:98 | the default order is transitive |
| StringOrder.LeAntisymmetric | js/script.js:98 | two names that each sort before the other are equal, so the sorted target is unique |
| Sorting.Sort | js/script.js:98 | the target is sorted under the default string order, has the drawn multiset, and has the same length |
| Sorting.SortedPermutationUnique | js/script.js:98 | two sorted arrangements of one multiset are equal, so the target does not depend on the sort algorithm |
| Sorting.SortIgnoresArrangement | js/script.js:97-99 | sorting before or after the shuffle gives the same target |
| Shuffle.SwapExchanges | js/script.js:165 | an exchange puts `s[j]` at `i` and `s[i]` at `j`, leaves every other position unchanged, and keeps the multiset |
| Shuffle.SwapInvolution | js/script.js:165 | exchanging the same two positions again restores the arrangement |
| Shuffle.SwapSelf | js/script.js:150-151 | exchanging a position with itself is no change, so skipping equal indices loses nothing |
| Shuffle.FisherYates | js/script.js:125-130 | the whole shuffle keeps the length and the multiset of the colours |
| Shuffle.FisherYatesFromPermutes | js/script.js:126-129 | the loop from `i` down to 1 keeps the multiset, and never touches positions above `i`, because every pick is at most `i` |
| Shuffle.ShuffleInPlace | js/script.js:125-130 | the shuffle loop with picks in `[0, i]` keeps the length and the multiset, and computes the recursive reference |
| Shuffle.ShuffleReachesEveryArrangement | js/script.js:125-130 | for every rearrangement of the input there are valid picks that make the shuffle produce it |
| Scoring.CountMatches | js/script.js:173-176 | the count is at most the number of containers, and equals it exactly when the arrangement equals the target up to its length |
| Scoring.CountMatchesIsMatchPositions | js/script.js:173-176 | the count is the size of the set of positions holding the target's colour |
| Scoring.FullMatchIffSorted | js/script.js:182 | when the target is the sorted rearrangement, a full match holds exactly when the arrangement equals the target, and exactly when it is sorted |
| GameConfig.ParseMode | js/script.js:240-243 | exactly `"free"`, `"timed"` and `"challenging"` select the three modes; any other string matches none of them |
| GameConfig.Resolve | js/script.js:15-19 | each option keeps its configured value unless it is absent or falsy; then it takes the default (free, 5, 30, 4); `"timed"` and `"challenging"` select their modes, and any other mode string is kept as its name; no resolved number is 0 |
| GameConfig.ParseModeName | js/script.js:240-243 | writing a mode the engine can hold as its string and parsing it gives the mode back |
| GameConfig.ResolveSpelled | js/script.js:15-19 | settings with truthy values are reproduced exactly by the configuration that spells them out |
| GameConfig.ResolveIdempotent | js/script.js:15-19 | resolving the spelled-out result of a resolution changes nothing |
| Game.NewSession | js/script.js:10-19 | a new session has no containers, no live timer, the resolved settings and the configured attempts, and satisfies the session invariant |
| Game.StartTimer | js/script.js:235-237 | the start time is now; a fresh interval is registered as the current one and added to the live ones, none is removed; settings, arrangement, attempts and dragging are kept |
| Game.StopTimer | js/script.js:256-258 | exactly the current interval is removed from the live ones (none when there is none); the reference to it, the settings, the start time, the next identifier, the arrangement, attempts and dragging are kept |
| Game.HandleWin | js/script.js:221-226 | a win is announced, dragging stops, exactly the interval registered last is cleared; settings, start time, arrangement and attempts are kept |
| Game.HandleGameOver | js/script.js:228-233 | a loss is announced, dragging stops, exactly the interval registered last is cleared; settings, start time, arrangement and attempts are kept |
| Game.Deal | js/script.js:97-117 | once the colours are drawn, the new arrangement is their shuffle under the picks, and so a permutation of them; the target is their sorted copy and also the sorted copy of the shuffled arrangement; attempts are not reset; one fresh interval is added without removing any and the next identifier moves on; the invariant is established |
| Game.InitializeGame | js/script.js:95-118 | a new game's containers are the shuffle, under the picks, of the palette prefix for the selected or configured count; the attempt counter is kept as it was; dragging is allowed; a new interval is registered, none is cleared, and the next identifier moves on; the invariant holds whenever interval identifiers were issued in order |
| Game.Recount | js/script.js:179-183 | the signals of one count are the matches out of the total, followed by a win exactly on a full match |
| Game.UpdateCorrectCount | js/script.js:172-185 | the signals are exactly those of one count: the count out of the total, then a win exactly on a full match; otherwise the session is unchanged; settings and start time are kept; a win stops dragging and clears the current interval, and otherwise dragging and the live intervals are as they were |
| Game.SwapContainers | js/script.js:159-170 | the arrangement is exchanged at the two positions; a win is announced exactly in free or timed mode when the new arrangement fully matches; in those modes the signals are exactly one count of the exchanged arrangement; other modes give no signal; settings and start time are kept; a win stops dragging and clears the current interval, and otherwise dragging and the live intervals are as they were |
| Game.Drop | js/script.js:145-157 | distinct positions are exchanged, equal ones are not; a win is announced exactly when dragging is on, the mode recounts, and the result fully matches; in free and timed mode the signals are one count of the result, twice over when positions were exchanged, so a completing exchange announces the win twice; target and attempts are unchanged; the invariant is preserved; settings and start time are kept; a win stops dragging and clears the current interval, and otherwise dragging and the live intervals are as they were |
| Game.CheckOrder | js/script.js:187-210 | on a full match, exactly a win, with attempts unchanged; otherwise the signals are the count, then the attempts left when one was spent, then a loss when none remain; no win, one attempt spent if any were left, a non-negative counter never going below zero, and a loss exactly when the attempts that remain are `<= 0`; settings and start time are kept; a win or loss stops dragging and clears the current interval, and otherwise dragging and the live intervals are as they were |
| Game.ElapsedSeconds | js/script.js:238 | the elapsed seconds are the floor of the elapsed milliseconds over 1000 |
| Game.Tick | js/script.js:237-253 | free and challenging games only show the elapsed seconds; a timed game shows exactly `timeLimit - elapsed`, followed by a loss, and is lost exactly when `timeLimit` whole seconds have passed; before the limit a timed tick changes nothing; other modes do nothing; a tick never wins; settings and start time are kept; a loss stops dragging and clears the current interval, and otherwise dragging and the live intervals are as they were |
| GameProperties.DropWinsExactlyWhenSorted | js/script.js:150-183 | in free and timed mode, a drop announces a win exactly when it leaves the containers sorted |
| GameProperties.ChecksSpendAttempts | js/script.js:200-203 | while the arrangement does not match, `k` checks spend `min(k, attempts)` of a positive counter, leave a zero or negative counter as it is, and leave the arrangement alone |
| GameProperties.LastAttemptEndsGame | js/script.js:195-209 | with `n >= 1` attempts and no match, the `n`-th check ends the game and no earlier check does |
| GameProperties.RestartAfterLossEndsAtFirstMiss | js/script.js:95-118 | with no attempts left, the first non-matching check of a restarted game is a loss |
| GameProperties.RestartLeavesEarlierTimerRunning | js/script.js:235-237 | starting a game while an interval runs adds an interval, and winning or losing the new game leaves the earlier one running |
| GameProperties.TimedLossIsFinal | js/script.js:245-250 | once a tick of a timed game reports the loss, every later tick would too |
| GameProperties.TimedLossStopsItsInterval | js/script.js:249-250 | the tick that ends a timed game clears its own interval when that is the current one, and stops dragging |
| GameProperties.TicksBeforeDeadline | js/script.js:237-253 | successive ticks of a timed game before its deadline show the countdown and leave the session as it is |
| GameProperties.FirstLateTickEndsGame | js/script.js:237-253 | in successive ticks of a timed game, the first one at or after the deadline shows its countdown and the loss, the earlier ones only their countdown, and none after it fires |
| GameProperties.DefaultGameTarget | js/script.js:96-98 | the default four-colour game draws red, blue, green, yellow and must be arranged as blue, green, red, yellow |

## Left out

- Page construction, text and styling (`createUI`, `init`, the element loop of
  `initializeGame`, background-colour swaps, message templating): these are
  presentation. The model keeps only the values the text shows, as signals.
- Drag event plumbing (`dragStart`, `dragOver`, `dataTransfer`): these are
  browser events. `Drop` takes the two container indices.
- `disableDragging`: the code applies it after a 100 ms `setTimeout`. The
  model applies it at once.
- `loadLang`: it fetches a locale file, and another as a fallback, over the
  network. The model assumes the locale it yields has `correctCountMessage`
  and `time`. When both fetches fail it yields an empty object and the game
  still starts. `updateCorrectCount` and `checkOrder` then throw while
  writing the count, before the win test or the spent attempt. The interval
  callback throws while writing the time, before a timed game can end. That
  failure is not modelled.
- Game.Drop: models only drags of the game's own containers, with both
  indices positions of containers. Once dragging is disabled none of those
  can begin, so the model's `Drop` then changes nothing. The code checks
  neither the source of a drop nor its indices. The `drop` listener stays
  attached and `dragOver` always accepts. So a drop from elsewhere, such as
  another widget's container or dragged text like `"0"`, still reaches
  `drop`. If it carries an index that exists here, the containers are
  swapped and recounted, even after the game was won or lost. In free or
  timed mode this can announce the win again. If the index does not exist,
  `swapContainers` throws at the colour exchange, before the array
  exchange. Neither foreign drop is modelled.
- `setInterval`, `clearInterval` and the one-second period: real-time
  scheduling. They are replaced by interval identifiers and explicit
  `Tick` calls.
- The constructor's early return when the page element is missing: that
  is part of page lookup.
- Game.InitializeGame: `parseInt` of the selector, non-integer or `NaN`
  counts, and non-numeric option values are not modelled. Counts are
  integers, and absent options are `None`.
- GameConfig.Resolve: every numeric option (`challengeAttempts`,
  `timeLimit`, `containerCount`) is an integer in the model, while the code
  accepts any JavaScript number. Fractional values behave differently: a
  `timeLimit` of 2.5 ends a timed game after 3 whole seconds, and fractional
  attempts skip 0 and go negative in `attemptsLeft--`. These are not modelled.
- Game.InitializeGame: its contract names the shuffle but does not restate
  the target. `Game.Deal`, which it calls on the drawn colours, states the
  permutation and the sorted target.
- Sorting.Sort: compares characters by their Unicode value. JavaScript
  compares UTF-16 code units. The two orders differ only above the Basic
  Multilingual Plane, and no palette colour reaches it.
- Shuffle.ShuffleInPlace: works on a copy of the sequence, not on the
  page's array in place. The order of the exchanges is the same.

=== FILE: game.dfy ===
/**
 The game session of `CocaGame`: the current and target arrangements, the
 attempt counter, the interval timers and whether dragging is allowed, with
 the handlers that change them.

 Every handler is a function from the session before the event to the
 session after it, together with the signals it gives the page in order
 (`Event`). The browser supplies the rest: the current time `now` in
 milliseconds (`Date.now()`), the draws of the shuffle (`picks`), and the
 container count chosen in the page's selector (`selected`).

 Intervals are tracked by identifier: starting the timer registers a new
 interval without clearing the one it replaces, and stopping it clears only
 the interval registered last.
 */
module Game {
  import opened GameConfig
  import opened Sorting
  import opened Palette
  import opened Shuffle
  import opened Scoring

  /** What a handler shows or announces on the page. */
  datatype Event =
    | CorrectCount(correct: nat, total: nat)
    | AttemptsShown(left: int)
    | TimeShown(seconds: int)
    | Won
    | Lost

  datatype Session = Session(
    settings: Settings,
    containers: seq<string>,
    correctOrder: seq<string>,
    attemptsLeft: int,
    startTime: int,
    timerInterval: Option<nat>,
    liveIntervals: set<nat>,
    nextInterval: nat,
    draggable: bool)

  /** The session after a handler, with the signals it gave in order. */
  datatype Step = Step(session: Session, events: seq<Event>)

  /** Interval identifiers handed out so far are below `nextInterval`. */
  predicate TimersIssued(s: Session) {
    && (forall id :: id in s.liveIntervals ==> id < s.nextInterval)
    && (s.timerInterval.Some? ==> s.timerInterval.value < s.nextInterval)
  }

  /**
   The session invariant: the target is the sorted rearrangement of the
   current colours, and interval identifiers are issued in order.
   */
  predicate Consistent(s: Session) {
    && multiset(s.containers) == multiset(s.correctOrder)
    && Sorted(s.correctOrder)
    && TimersIssued(s)
  }

  /** The state right after construction: no game has started and no timer runs. */
  function NewSession(c: Config): (s: Session)
    ensures Consistent(s)
    ensures s.containers == [] && s.liveIntervals == {}
    ensures s.settings == Resolve(c) && s.attemptsLeft == Resolve(c).attempts
  {
    Session(Resolve(c), [], [], Resolve(c).attempts, 0, None, {}, 0, false)
  }

  // ---------------------------------------------------------------- timers

  /** `startTimer`: record the start time and register one more interval. */
  function StartTimer(s: Session, now: int): (r: Session)
    ensures r.startTime == now
    ensures r.timerInterval == Some(s.nextInterval)
    ensures r.liveIntervals == s.liveIntervals + {s.nextInterval}
    ensures s.nextInterval !in s.liveIntervals ==> |r.liveIntervals| == |s.liveIntervals| + 1
    ensures TimersIssued(s) ==> TimersIssued(r)
    ensures r.containers == s.containers && r.correctOrder == s.correctOrder
    ensures r.attemptsLeft == s.attemptsLeft && r.draggable == s.draggable
    ensures r.settings == s.settings && r.nextInterval == s.nextInterval + 1
  {
    s.(startTime := now,
       timerInterval := Some(s.nextInterval),
       liveIntervals := s.liveIntervals + {s.nextInterval},
       nextInterval := s.nextInterval + 1)
  }

  /** `stopTimer`: clear the interval registered last; clearing it again is harmless. */
  function StopTimer(s: Session): (r: Session)
    ensures s.timerInterval.Some? ==> r.liveIntervals == s.liveIntervals - {s.timerInterval.value}
    ensures s.timerInterval.None? ==> r.liveIntervals == s.liveIntervals
    ensures r.liveIntervals <= s.liveIntervals
    ensures TimersIssued(s) ==> TimersIssued(r)
    ensures r.containers == s.containers && r.correctOrder == s.correctOrder
    ensures r.attemptsLeft == s.attemptsLeft && r.draggable == s.draggable
    ensures KeepsClock(s, r)
  {
    match s.timerInterval
    case Some(id) => s.(liveIntervals := s.liveIntervals - {id})
    case None => s
  }

  /**
   What no handler after the start of a game changes: the settings, the
   start time, the reference to the current interval and the next
   identifier. A handler only stops intervals, it never registers one.
   */
  predicate KeepsClock(s: Session, r: Session) {
    && r.settings == s.settings
    && r.startTime == s.startTime
    && r.timerInterval == s.timerInterval
    && r.nextInterval == s.nextInterval
  }

  /** The end of a game, by win or loss: dragging stops and the current interval is cleared. */
  predicate EndsGame(s: Session, r: Session) {
    !r.draggable && r.liveIntervals == StopTimer(s).liveIntervals
  }

  /** A game that goes on: dragging and the live intervals are as they were. */
  predicate GoesOn(s: Session, r: Session) {
    r.draggable == s.draggable && r.liveIntervals == s.liveIntervals
  }

  /** `handleWin`: stop the timer, announce the win and stop dragging. */
  function HandleWin(s: Session): (r: Step)
    ensures r.events == [Won]
    ensures !r.session.draggable
    ensures r.session.timerInterval == s.timerInterval
    ensures s.timerInterval.Some? ==> r.session.liveIntervals == s.liveIntervals - {s.timerInterval.value}
    ensures s.timerInterval.None? ==> r.session.liveIntervals == s.liveIntervals
    ensures r.session.timerInterval.Some? ==> r.session.timerInterval.value !in r.session.liveIntervals
    ensures r.session.liveIntervals <= s.liveIntervals
    ensures r.session.containers == s.containers && r.session.correctOrder == s.correctOrder
    ensures r.session.attemptsLeft == s.attemptsLeft
    ensures KeepsClock(s, r.session)
    ensures Consistent(s) ==> Consistent(r.session)
  {
    Step(StopTimer(s).(draggable := false), [Won])
  }

  /** `handleGameOver`: stop the timer, announce the loss and stop dragging. */
  function HandleGameOver(s: Session): (r: Step)
    ensures r.events == [Lost]
    ensures !r.session.draggable
    ensures r.session.timerInterval == s.timerInterval
    ensures s.timerInterval.Some? ==> r.session.liveIntervals == s.liveIntervals - {s.timerInterval.value}
    ensures s.timerInterval.None? ==> r.session.liveIntervals == s.liveIntervals
    ensures r.session.timerInterval.Some? ==> r.session.timerInterval.value !in r.session.liveIntervals
    ensures r.session.liveIntervals <= s.liveIntervals
    ensures r.session.containers == s.containers && r.session.correctOrder == s.correctOrder
    ensures r.session.attemptsLeft == s.attemptsLeft
    ensures KeepsClock(s, r.session)
    ensures Consistent(s) ==> Consistent(r.session)
  {
    Step(StopTimer(s).(draggable := false), [Lost])
  }

  // ------------------------------------------------------------ start game

  /** The number of containers of a new game: the page's selector when it is shown. */
  function ContainerCount(settings: Settings, selected: int): (n: int)
    ensures settings.allowSelection ==> n == selected
    ensures !settings.allowSelection ==> n == settings.containerCount
  {
    if settings.allowSelection then selected else settings.containerCount
  }

  /** The colours a new game draws. */
  function DrawnColors(s: Session, selected: int): (r: seq<string>)
  {
    GenerateRandomColors(ContainerCount(s.settings, selected))
  }

  /**
   The second half of `initializeGame`, once the colours are drawn: fix the
   target as their sorted copy, shuffle them, allow dragging and start the
   timer. The attempt counter is left as it was.
   */
  function Deal(s: Session, drawn: seq<string>, picks: seq<int>, now: int): (r: Session)
    requires ValidPicks(picks, |drawn|)
    ensures r.containers == FisherYates(drawn, picks)
    ensures multiset(r.containers) == multiset(drawn)
    ensures r.correctOrder == Sort(drawn)
    ensures r.correctOrder == Sort(r.containers)
    ensures TimersIssued(s) ==> Consistent(r)
    ensures r.attemptsLeft == s.attemptsLeft
    ensures r.liveIntervals == s.liveIntervals + {s.nextInterval}
    ensures r.timerInterval == Some(s.nextInterval) && r.startTime == now
    ensures r.nextInterval == s.nextInterval + 1
    ensures r.draggable && r.settings == s.settings
  {
    var target := Sort(drawn);
    var shuffled := FisherYates(drawn, picks);
    SortIgnoresArrangement(shuffled, drawn);
    var dealt := s.(containers := shuffled, correctOrder := target, draggable := true);
    assert TimersIssued(s) ==> TimersIssued(dealt);
    StartTimer(dealt, now)
  }

  /** `initializeGame`: draw the colours of the chosen count and deal them. */
  function InitializeGame(s: Session, selected: int, picks: seq<int>, now: int): (r: Session)
    requires ValidPicks(picks, |DrawnColors(s, selected)|)
    ensures r.containers == FisherYates(DrawnColors(s, selected), picks)
    ensures |r.containers| == |DrawnColors(s, selected)|
    ensures TimersIssued(s) ==> Consistent(r)
    ensures r.attemptsLeft == s.attemptsLeft
    ensures r.liveIntervals == s.liveIntervals + {s.nextInterval}
    ensures r.timerInterval == Some(s.nextInterval) && r.startTime == now
    ensures r.nextInterval == s.nextInterval + 1
    ensures r.draggable && r.settings == s.settings
  {
    Deal(s, DrawnColors(s, selected), picks, now)
  }

  // ------------------------------------------------------------- the moves

  /** The signals of one count: the matches out of the total, then a win on a full match. */
  function Recount(current: seq<string>, target: seq<string>): (r: seq<Event>)
    ensures 1 <= |r| <= 2 && Lost !in r
    ensures r[0] == CorrectCount(CountMatches(current, target), |current|)
    ensures r[0].correct == r[0].total <==> FullMatch(current, target)
    ensures |r| == 2 <==> FullMatch(current, target)
    ensures |r| == 2 ==> r[1] == Won
  {
    var correct := CountMatches(current, target);
    [CorrectCount(correct, |current|)] + if correct == |current| then [Won] else []
  }

  /** `updateCorrectCount`: show the count, and declare a win on a full match. */
  function UpdateCorrectCount(s: Session): (r: Step)
    ensures KeepsClock(s, r.session)
    ensures Won in r.events || Lost in r.events ==> EndsGame(s, r.session)
    ensures Won !in r.events && Lost !in r.events ==> GoesOn(s, r.session)
    ensures r.events == Recount(s.containers, s.correctOrder)
    ensures Won in r.events <==> FullMatch(s.containers, s.correctOrder)
    ensures Lost !in r.events
    ensures !FullMatch(s.containers, s.correctOrder) ==> r.session == s
    ensures r.session.containers == s.containers && r.session.correctOrder == s.correctOrder
    ensures r.session.attemptsLeft == s.attemptsLeft
    ensures Consistent(s) ==> Consistent(r.session)
  {
    var shown := Recount(s.containers, s.correctOrder);
    if FullMatch(s.containers, s.correctOrder) then Step(HandleWin(s).session, shown)
    else Step(s, shown)
  }

  /** `swapContainers`: exchange two containers, and recount in the live-count modes. */
  function SwapContainers(s: Session, from: nat, to: nat): (r: Step)
    requires from < |s.containers| && to < |s.containers|
    ensures KeepsClock(s, r.session)
    ensures Won in r.events || Lost in r.events ==> EndsGame(s, r.session)
    ensures Won !in r.events && Lost !in r.events ==> GoesOn(s, r.session)
    ensures r.session.containers == Swap(s.containers, from, to)
    ensures r.session.correctOrder == s.correctOrder
    ensures r.session.attemptsLeft == s.attemptsLeft
    ensures Won in r.events <==>
      RecountsOnDrop(s.settings.mode) && FullMatch(Swap(s.containers, from, to), s.correctOrder)
    ensures Lost !in r.events
    ensures RecountsOnDrop(s.settings.mode) ==>
      r.events == Recount(Swap(s.containers, from, to), s.correctOrder)
    ensures !RecountsOnDrop(s.settings.mode) ==> r.events == []
    ensures Consistent(s) ==> Consistent(r.session)
  {
    var swapped := s.(containers := Swap(s.containers, from, to));
    SwapExchanges(s.containers, from, to);
    assert Consistent(s) ==> Consistent(swapped);
    if RecountsOnDrop(s.settings.mode) then UpdateCorrectCount(swapped)
    else Step(swapped, [])
  }

  /**
   `drop`: the player dropped container `from` onto container `to`. Distinct
   positions are exchanged; in the live-count modes the matches are then
   counted (a second time, when the exchange already counted them). Only
   drags of the game's own containers are modelled, and once dragging is
   disabled none of them can begin, so nothing changes.
   */
  function Drop(s: Session, from: nat, to: nat): (r: Step)
    requires from < |s.containers| && to < |s.containers|
    ensures KeepsClock(s, r.session)
    ensures Won in r.events || Lost in r.events ==> EndsGame(s, r.session)
    ensures Won !in r.events && Lost !in r.events ==> GoesOn(s, r.session)
    ensures r.session.containers ==
      if s.draggable && from != to then Swap(s.containers, from, to) else s.containers
    ensures r.session.correctOrder == s.correctOrder
    ensures r.session.attemptsLeft == s.attemptsLeft
    ensures Won in r.events <==>
      s.draggable && RecountsOnDrop(s.settings.mode) && FullMatch(r.session.containers, s.correctOrder)
    ensures Lost !in r.events
    ensures s.draggable && RecountsOnDrop(s.settings.mode) ==>
      var once := Recount(r.session.containers, s.correctOrder);
      r.events == if from != to then once + once else once
    ensures !s.draggable || !RecountsOnDrop(s.settings.mode) ==> r.events == []
    ensures Consistent(s) ==> Consistent(r.session)
  {
    if !s.draggable then Step(s, [])
    else
      var moved := if from != to then SwapContainers(s, from, to) else Step(s, []);
      if RecountsOnDrop(s.settings.mode) then
        var recount := UpdateCorrectCount(moved.session);
        Step(recount.session, moved.events + recount.events)
      else moved
  }

  /** The attempt counter after a failed check: one less, but only while it is positive. */
  function SpendAttempt(left: int): (r: int)
    ensures left > 0 ==> r == left - 1
    ensures left <= 0 ==> r == left
    ensures left >= 0 ==> r >= 0
  {
    if left > 0 then left - 1 else left
  }

  /**
   `checkOrder`: on a full match declare a win; otherwise show the count,
   spend an attempt, and end the game once no attempts are left.
   */
  function CheckOrder(s: Session): (r: Step)
    ensures KeepsClock(s, r.session)
    ensures Won in r.events || Lost in r.events ==> EndsGame(s, r.session)
    ensures Won !in r.events && Lost !in r.events ==> GoesOn(s, r.session)
    ensures r.session.containers == s.containers && r.session.correctOrder == s.correctOrder
    ensures FullMatch(s.containers, s.correctOrder) ==>
      r.session.attemptsLeft == s.attemptsLeft && Won in r.events && Lost !in r.events
    ensures !FullMatch(s.containers, s.correctOrder) ==>
      && Won !in r.events
      && (s.attemptsLeft > 0 ==> r.session.attemptsLeft == s.attemptsLeft - 1)
      && (s.attemptsLeft <= 0 ==> r.session.attemptsLeft == s.attemptsLeft)
      && (Lost in r.events <==> r.session.attemptsLeft <= 0)
      && r.events == Recount(s.containers, s.correctOrder)
           + (if s.attemptsLeft > 0 then [AttemptsShown(s.attemptsLeft - 1)] else [])
           + (if r.session.attemptsLeft <= 0 then [Lost] else [])
    ensures FullMatch(s.containers, s.correctOrder) ==> r.events == [Won]
    ensures s.attemptsLeft >= 0 ==> r.session.attemptsLeft >= 0
    ensures Consistent(s) ==> Consistent(r.session)
  {
    if FullMatch(s.containers, s.correctOrder) then HandleWin(s)
    else
      var shown := Recount(s.containers, s.correctOrder);
      var left := SpendAttempt(s.attemptsLeft);
      var spent := s.(attemptsLeft := left);
      var told := if s.attemptsLeft > 0 then shown + [AttemptsShown(left)] else shown;
      if left <= 0 then
        var over := HandleGameOver(spent);
        Step(over.session, told + over.events)
      else
        Step(spent, told)
  }

  // ------------------------------------------------------------- the clock

  /** `Math.floor((now - startTime) / 1000)`: whole seconds since the start. */
  function ElapsedSeconds(startTime: int, now: int): (r: int)
    ensures 1000 * r <= now - startTime < 1000 * (r + 1)
  {
    (now - startTime) / 1000
  }

  /**
   One call of the interval callback of a live interval `id`. Free and
   challenging games show the elapsed seconds; a timed game shows the
   seconds left and is lost once none are left; any other mode does nothing.
   */
  function Tick(s: Session, id: nat, now: int): (r: Step)
    requires id in s.liveIntervals
    ensures KeepsClock(s, r.session)
    ensures Won in r.events || Lost in r.events ==> EndsGame(s, r.session)
    ensures Won !in r.events && Lost !in r.events ==> GoesOn(s, r.session)
    ensures r.session.containers == s.containers && r.session.correctOrder == s.correctOrder
    ensures r.session.attemptsLeft == s.attemptsLeft
    ensures Won !in r.events
    ensures ShowsElapsedTime(s.settings.mode) ==>
      r == Step(s, [TimeShown(ElapsedSeconds(s.startTime, now))])
    ensures s.settings.mode == Timed ==>
      && r.events == [TimeShown(s.settings.timeLimit - ElapsedSeconds(s.startTime, now))]
           + (if now - s.startTime >= 1000 * s.settings.timeLimit then [Lost] else [])
      && (Lost in r.events <==> now - s.startTime >= 1000 * s.settings.timeLimit)
      && (s.settings.timeLimit - ElapsedSeconds(s.startTime, now) > 0 ==> r.session == s)
    ensures s.settings.mode.Unrecognised? ==> r == Step(s, [])
    ensures Consistent(s) ==> Consistent(r.session)
  {
    var elapsed := ElapsedSeconds(s.startTime, now);
    match s.settings.mode
    case Free => Step(s, [TimeShown(elapsed)])
    case Challenging => Step(s, [TimeShown(elapsed)])
    case Timed =>
      var remaining := s.settings.timeLimit - elapsed;
      if remaining <= 0 then
        var over := HandleGameOver(s);
        Step(over.session, [TimeShown(remaining)] + over.events)
      else
        Step(s, [TimeShown(remaining)])
    case Unrecognised(_) => Step(s, [])
  }
}

=== FILE: game_config.dfy ===
/**
 The configuration a game is built from and the defaults the constructor
 fills in.

 The constructor writes `config.option || default`: JavaScript's `||` keeps
 the configured value only when it is truthy, so an absent option, a `0`, an
 empty string or `false` all fall back to the default. A configured `0`
 attempts or a `0` second time limit therefore cannot be expressed.
 */
module GameConfig {

  datatype Option<T> = None | Some(value: T)

  const DefaultMode: string := "free"
  const DefaultAttempts: int := 5
  const DefaultTimeLimit: int := 30
  const DefaultContainerCount: int := 4

  /**
   The game modes the engine tests for. Any other mode string is accepted and
   stored, but matches none of the engine's comparisons.
   */
  datatype Mode = Free | Timed | Challenging | Unrecognised(name: string)

  function ParseMode(name: string): (m: Mode)
    ensures m == Free <==> name == "free"
    ensures m == Timed <==> name == "timed"
    ensures m == Challenging <==> name == "challenging"
    ensures m.Unrecognised? ==> m.name == name
  {
    if name == "free" then Free
    else if name == "timed" then Timed
    else if name == "challenging" then Challenging
    else Unrecognised(name)
  }

  /** Modes in which every drop recounts the matches and can declare a win. */
  predicate RecountsOnDrop(m: Mode) {
    m == Free || m == Timed
  }

  /** Modes in which the timer shows the seconds elapsed since the start. */
  predicate ShowsElapsedTime(m: Mode) {
    m == Free || m == Challenging
  }

  /** The options the constructor reads; `None` is an option left out of the configuration. */
  datatype Config = Config(
    gameMode: Option<string>,
    challengeAttempts: Option<int>,
    timeLimit: Option<int>,
    allowUserContainerSelection: Option<bool>,
    containerCount: Option<int>)

  /** What the constructor stores after applying the defaults. */
  datatype Settings = Settings(
    mode: Mode,
    attempts: int,
    timeLimit: int,
    allowSelection: bool,
    containerCount: int)

  /** `value || default` for a numeric option: `0` is falsy. */
  function NumberOr(value: Option<int>, default: int): (r: int)
    ensures value.Some? && value.value != 0 ==> r == value.value
    ensures value.None? || value.value == 0 ==> r == default
  {
    match value
    case Some(v) => if v != 0 then v else default
    case None => default
  }

  /** `value || default` for a string option: the empty string is falsy. */
  function TextOr(value: Option<string>, default: string): (r: string)
    ensures value.Some? && value.value != "" ==> r == value.value
    ensures value.None? || value.value == "" ==> r == default
  {
    match value
    case Some(v) => if v != "" then v else default
    case None => default
  }

  /** The constructor's defaults applied to a configuration. */
  function Resolve(c: Config): (s: Settings)
    ensures s.mode == Free <==> c.gameMode.None? || c.gameMode.value in {"", "free"}
    ensures s.mode == Timed <==> c.gameMode == Some("timed")
    ensures s.mode == Challenging <==> c.gameMode == Some("challenging")
    ensures s.mode.Unrecognised? ==> c.gameMode == Some(s.mode.name)
    ensures c.challengeAttempts.Some? && c.challengeAttempts.value != 0 ==>
      s.attempts == c.challengeAttempts.value
    ensures c.timeLimit.Some? && c.timeLimit.value != 0 ==> s.timeLimit == c.timeLimit.value
    ensures c.containerCount.Some? && c.containerCount.value != 0 ==>
      s.containerCount == c.containerCount.value
    ensures s.attempts == DefaultAttempts <==>
      c.challengeAttempts.None? || c.challengeAttempts.value in {0, DefaultAttempts}
    ensures s.attempts != 0 && s.timeLimit != 0 && s.containerCount != 0
    ensures s.timeLimit == DefaultTimeLimit <==>
      c.timeLimit.None? || c.timeLimit.value in {0, DefaultTimeLimit}
    ensures s.containerCount == DefaultContainerCount <==>
      c.containerCount.None? || c.containerCount.value in {0, DefaultContainerCount}
    ensures s.allowSelection <==> c.allowUserContainerSelection == Some(true)
  {
    Settings(
      ParseMode(TextOr(c.gameMode, DefaultMode)),
      NumberOr(c.challengeAttempts, DefaultAttempts),
      NumberOr(c.timeLimit, DefaultTimeLimit),
      c.allowUserContainerSelection == Some(true),
      NumberOr(c.containerCount, DefaultContainerCount))
  }

  /** The mode string the engine compares against for each mode. */
  function ModeName(m: Mode): (name: string)
    ensures name == "" <==> m == Unrecognised("")
  {
    match m
    case Free => "free"
    case Timed => "timed"
    case Challenging => "challenging"
    case Unrecognised(n) => n
  }

  /** A mode that the engine can actually hold: an unrecognised name is none of the three. */
  predicate Storable(m: Mode) {
    m.Unrecognised? ==> m.name !in {"free", "timed", "challenging"}
  }

  /** Writing a stored mode as its string and parsing it again gives the mode back. */
  lemma ParseModeName(m: Mode)
    requires Storable(m)
    ensures ParseMode(ModeName(m)) == m
  {
  }

  /** The configuration that spells out every one of `st`'s settings. */
  function Spelled(st: Settings): (c: Config)
    ensures c.gameMode.Some? && c.challengeAttempts.Some? && c.timeLimit.Some?
    ensures c.containerCount.Some? && c.allowUserContainerSelection.Some?
  {
    Config(Some(ModeName(st.mode)), Some(st.attempts), Some(st.timeLimit),
           Some(st.allowSelection), Some(st.containerCount))
  }

  /**
   Every settings value the defaults could have produced is reproduced by the
   configuration that spells it out: the constructor keeps each truthy
   option as configured.
   */
  lemma ResolveSpelled(st: Settings)
    requires Storable(st.mode) && st.mode != Unrecognised("")
    requires st.attempts != 0 && st.timeLimit != 0 && st.containerCount != 0
    ensures Resolve(Spelled(st)) == st
  {
  }

  /** Resolving is a fixed point: spelling out resolved settings and resolving again changes nothing. */
  lemma ResolveIdempotent(c: Config)
    ensures Resolve(Spelled(Resolve(c))) == Resolve(c)
  {
  }
}

=== FILE: game_properties.dfy ===
/**
 Properties of whole games: sequences of handler calls, and the behaviour
 that follows from the session invariant.
 */
module GameProperties {
  import opened GameConfig
  import opened StringOrder
  import opened Sorting
  import opened Palette
  import opened Shuffle
  import opened Scoring
  import opened Game

  /**
   In the live-count modes a drop announces a win exactly when it leaves the
   containers sorted, whatever arrangement the shuffle produced.
   */
  lemma DropWinsExactlyWhenSorted(s: Session, from: nat, to: nat)
    requires Consistent(s) && s.draggable && RecountsOnDrop(s.settings.mode)
    requires from < |s.containers| && to < |s.containers|
    ensures Won in Drop(s, from, to).events <==> Sorted(Drop(s, from, to).session.containers)
  {
    var r := Drop(s, from, to).session;
    FullMatchIffSorted(r.containers, r.correctOrder);
  }

  /** The session after `k` presses of the check button. */
  function CheckTimes(s: Session, k: nat): (r: Session)
    decreases k
  {
    if k == 0 then s else CheckOrder(CheckTimes(s, k - 1)).session
  }

  /**
   While the arrangement does not match, every check spends one attempt
   until none are left, and the arrangement stays as it is.
   */
  lemma {:induction false} ChecksSpendAttempts(s: Session, k: nat)
    requires !FullMatch(s.containers, s.correctOrder)
    ensures CheckTimes(s, k).containers == s.containers
    ensures CheckTimes(s, k).correctOrder == s.correctOrder
    ensures s.attemptsLeft <= 0 ==> CheckTimes(s, k).attemptsLeft == s.attemptsLeft
    ensures s.attemptsLeft > 0 ==>
      CheckTimes(s, k).attemptsLeft == if k <= s.attemptsLeft then s.attemptsLeft - k else 0
    decreases k
  {
    if k > 0 {
      ChecksSpendAttempts(s, k - 1);
      var before := CheckTimes(s, k - 1);
      assert !FullMatch(before.containers, before.correctOrder);
      assert CheckTimes(s, k) == CheckOrder(before).session;
    }
  }

  /**
   With `n` attempts and an arrangement that does not match, the `n`-th
   check ends the game and no earlier one does; the `k + 1`-th check is the
   one after `k` checks.
   */
  lemma LastAttemptEndsGame(s: Session, k: nat)
    requires !FullMatch(s.containers, s.correctOrder) && s.attemptsLeft >= 1
    ensures Lost in CheckOrder(CheckTimes(s, k)).events <==> k + 1 >= s.attemptsLeft
  {
    ChecksSpendAttempts(s, k);
  }

  /**
   Restarting does not refill the attempts: after a lost challenge the first
   check of the next game that does not match ends it at once.
   */
  lemma RestartAfterLossEndsAtFirstMiss(s: Session, selected: int, picks: seq<int>, now: int)
    requires s.attemptsLeft == 0
    requires ValidPicks(picks, |DrawnColors(s, selected)|)
    ensures var r := InitializeGame(s, selected, picks, now);
      !FullMatch(r.containers, r.correctOrder) ==> Lost in CheckOrder(r).events
  {
  }

  /**
   Starting a game while an interval runs leaves that interval running, and
   winning or losing the new game clears only the new one.
   */
  lemma RestartLeavesEarlierTimerRunning(s: Session, selected: int, picks: seq<int>, now: int)
    requires TimersIssued(s)
    requires s.timerInterval.Some? && s.timerInterval.value in s.liveIntervals
    requires ValidPicks(picks, |DrawnColors(s, selected)|)
    ensures |InitializeGame(s, selected, picks, now).liveIntervals| == |s.liveIntervals| + 1
    ensures s.timerInterval.value in HandleWin(InitializeGame(s, selected, picks, now)).session.liveIntervals
    ensures s.timerInterval.value in HandleGameOver(InitializeGame(s, selected, picks, now)).session.liveIntervals
  {
    var r := InitializeGame(s, selected, picks, now);
    StillLiveAfterStop(r, s.timerInterval.value);
  }

  /** Stopping the timer clears no interval other than the one registered last. */
  lemma StillLiveAfterStop(r: Session, id: nat)
    requires id in r.liveIntervals && r.timerInterval != Some(id)
    ensures id in HandleWin(r).session.liveIntervals
    ensures id in HandleGameOver(r).session.liveIntervals
  {
  }

  /** The default four-colour game must be arranged as blue, green, red, yellow. */
  lemma DefaultGameTarget()
    ensures GenerateRandomColors(DefaultContainerCount) == ["red", "blue", "green", "yellow"]
    ensures Sort(GenerateRandomColors(DefaultContainerCount)) == ["blue", "green", "red", "yellow"]
  {
    var drawn := GenerateRandomColors(DefaultContainerCount);
    var target: seq<string> := ["blue", "green", "red", "yellow"];
    assert drawn == ["red", "blue", "green", "yellow"];
    DefaultTargetSorted();
    assert multiset(drawn) == multiset(target);
    SortedPermutationUnique(Sort(drawn), target);
  }

  /** Blue, green, red, yellow is in the default string order. */
  lemma DefaultTargetSorted()
    ensures Sorted(["blue", "green", "red", "yellow"])
  {
    var t: seq<string> := ["blue", "green", "red", "yellow"];
    assert Le(t[0], t[1]) && Le(t[1], t[2]) && Le(t[2], t[3]);
    LeTransitive(t[0], t[1], t[2]);
    LeTransitive(t[1], t[2], t[3]);
    LeTransitive(t[0], t[2], t[3]);
  }

  /** In a timed game, once a tick reports the loss, every later tick of the same game would report it too. */
  lemma TimedLossIsFinal(s: Session, id: nat, now: int, later: int)
    requires s.settings.mode == Timed && id in s.liveIntervals
    requires now <= later && Lost in Tick(s, id, now).events
    ensures Lost in Tick(s, id, later).events
  {
  }

  /**
   The tick that ends a timed game clears the interval that runs it, when
   that interval is the current one: the callback does not fire again.
   */
  lemma TimedLossStopsItsInterval(s: Session, now: int)
    requires s.settings.mode == Timed
    requires s.timerInterval.Some? && s.timerInterval.value in s.liveIntervals
    requires Lost in Tick(s, s.timerInterval.value, now).events
    ensures s.timerInterval.value !in Tick(s, s.timerInterval.value, now).session.liveIntervals
    ensures !Tick(s, s.timerInterval.value, now).session.draggable
  {
  }

  /**
   The interval callback of `id` fired at each of `times` in turn. Once the
   interval is cleared (the game it runs has ended) it fires no more.
   */
  function TickTimes(s: Session, id: nat, times: seq<int>): (r: Step)
    decreases |times|
  {
    if |times| == 0 || id !in s.liveIntervals then Step(s, [])
    else
      var first := Tick(s, id, times[0]);
      var rest := TickTimes(first.session, id, times[1..]);
      Step(rest.session, first.events + rest.events)
  }

  /** The moment a timed game runs out: `timeLimit` whole seconds after the start. */
  function Deadline(s: Session): (t: int)
    ensures t - s.startTime == 1000 * s.settings.timeLimit
  {
    s.startTime + 1000 * s.settings.timeLimit
  }

  /** The countdown a timed game shows at each of `times`. */
  function Countdown(s: Session, times: seq<int>): (r: seq<Event>)
    ensures |r| == |times|
    decreases |times|
  {
    if |times| == 0 then []
    else [TimeShown(s.settings.timeLimit - ElapsedSeconds(s.startTime, times[0]))] + Countdown(s, times[1..])
  }

  /** Ticks before the deadline show the countdown and leave a timed game as it is. */
  lemma {:induction false} TicksBeforeDeadline(s: Session, id: nat, times: seq<int>)
    requires s.settings.mode == Timed && id in s.liveIntervals
    requires forall k :: 0 <= k < |times| ==> times[k] < Deadline(s)
    ensures TickTimes(s, id, times) == Step(s, Countdown(s, times))
    decreases |times|
  {
    if |times| > 0 {
      TicksBeforeDeadline(s, id, times[1..]);
    }
  }

  /**
   The first tick at or after the deadline ends a timed game run by its
   current interval: the ticks before it show the countdown, it shows its
   own and the loss, and no tick after it fires.
   */
  lemma {:induction false} FirstLateTickEndsGame(s: Session, times: seq<int>, k: nat)
    requires s.settings.mode == Timed
    requires s.timerInterval.Some? && s.timerInterval.value in s.liveIntervals
    requires k < |times| && times[k] >= Deadline(s)
    requires forall j :: 0 <= j < k ==> times[j] < Deadline(s)
    ensures var id := s.timerInterval.value;
      TickTimes(s, id, times) == Step(Tick(s, id, times[k]).session, Countdown(s, times[..k + 1]) + [Lost])
    decreases k
  {
    var id := s.timerInterval.value;
    var rest := times[1..];
    if k == 0 {
      var over := Tick(s, id, times[0]).session;
      assert id !in over.liveIntervals;
      assert TickTimes(over, id, rest) == Step(over, []);
      assert times[..1] == [times[0]];
    } else {
      assert Tick(s, id, times[0]).session == s;
      FirstLateTickEndsGame(s, rest, k - 1);
      assert times[..k + 1][1..] == rest[..k];
    }
  }

}

=== FILE: palette.dfy ===
/**
 Palette selection (`generateRandomColors`): the colours of a game are a
 prefix of a fixed list of ten colour names. Despite the name nothing is
 random here; the randomness of a game lives in the shuffle.
 */
module Palette {

  const Colors: seq<string> :=
    ["red", "blue", "green", "yellow", "purple", "orange", "pink", "brown", "golden", "skyblue"]

  /**
   The end position `Array.prototype.slice(0, end)` stops at on a list of
   length `len`: a negative end counts back from the end of the list, and
   either way the position is clamped to `[0, len]`.
   */
  function SliceEnd(len: nat, end: int): (k: nat)
    ensures k <= len
    ensures 0 <= end ==> (k == end || (end > len && k == len))
    ensures end < 0 ==> (k + (-end) == len || (-end > len && k == 0))
  {
    if end < 0 then
      if len + end < 0 then 0 else len + end
    else
      if end < len then end else len
  }

  /** The colours of a game of `count` containers. */
  function GenerateRandomColors(count: int): (r: seq<string>)
    ensures r == Colors[..SliceEnd(|Colors|, count)]
    ensures 0 <= count <= |Colors| ==> |r| == count
    ensures count > |Colors| ==> r == Colors
    ensures count < 0 ==> |r| == if count < -|Colors| then 0 else |Colors| + count
  {
    Colors[..SliceEnd(|Colors|, count)]
  }

  /** No colour name occurs twice in a game. */
  lemma GeneratedColorsDistinct(count: int)
    ensures var r := GenerateRandomColors(count);
      forall i, j :: 0 <= i < j < |r| ==> r[i] != r[j]
  {
  }
}

=== FILE: scoring.dfy ===
/**
 Match counting (`updateCorrectCount` and the first half of `checkOrder`):
 how many positions of the current arrangement hold the colour the target
 wants there, and whether that is all of them.

 The scan walks the current arrangement and reads the target at the same
 index; a target shorter than the arrangement yields `undefined` there,
 which equals no colour, so such positions never match.
 */
module Scoring {
  import opened StringOrder
  import opened Sorting

  /** The positions of `current` whose colour equals the target's at the same index. */
  ghost function MatchPositions(current: seq<string>, target: seq<string>): set<nat> {
    set k: nat | k < |current| && k < |target| && current[k] == target[k]
  }

  /** The number of matching positions, counted as the scan over `current` does. */
  function CountMatches(current: seq<string>, target: seq<string>): (r: nat)
    ensures r <= |current|
    ensures r == |current| <==> |current| <= |target| && current == target[..|current|]
    decreases |current|
  {
    if |current| == 0 then 0
    else
      var last := |current| - 1;
      var before := CountMatches(current[..last], target);
      assert current == current[..last] + [current[last]];
      before + if last < |target| && current[last] == target[last] then 1 else 0
  }

  /** The count is exactly the number of matching positions. */
  lemma {:induction false} CountMatchesIsMatchPositions(current: seq<string>, target: seq<string>)
    ensures CountMatches(current, target) == |MatchPositions(current, target)|
    decreases |current|
  {
    if |current| > 0 {
      var last := |current| - 1;
      CountMatchesIsMatchPositions(current[..last], target);
      var before := MatchPositions(current[..last], target);
      if last < |target| && current[last] == target[last] {
        assert MatchPositions(current, target) == before + {last};
      } else {
        assert MatchPositions(current, target) == before;
      }
    }
  }

  /** The player has won exactly when every position matches. */
  predicate FullMatch(current: seq<string>, target: seq<string>) {
    CountMatches(current, target) == |current|
  }

  /**
   With a target that is the sorted rearrangement of the current colours, a
   full match means the arrangement equals the target, which is the same as
   the arrangement being sorted.
   */
  lemma FullMatchIffSorted(current: seq<string>, target: seq<string>)
    requires multiset(current) == multiset(target) && Sorted(target)
    ensures FullMatch(current, target) <==> current == target
    ensures FullMatch(current, target) <==> Sorted(current)
  {
    assert |current| == |multiset(current)| == |multiset(target)| == |target|;
    assert target[..|target|] == target;
    if Sorted(current) {
      SortedPermutationUnique(current, target);
    }
  }
}

=== FILE: shuffle.dfy ===
/**
 Rearranging the containers: the exchange of two positions (used by the
 Fisher–Yates shuffle and by the player's drag-and-drop) and the shuffle
 itself.

 The random draw `Math.floor(Math.random() * (i + 1))` is lifted out into a
 sequence of picks: `picks[i]` is the index drawn when the loop is at `i`
 (`picks[0]` is never read, since the loop stops before 0).
 */
module Shuffle {

  /** The arrangement `s` with the items at `i` and `j` exchanged. */
  function Swap<T>(s: seq<T>, i: nat, j: nat): (r: seq<T>)
    requires i < |s| && j < |s|
    ensures |r| == |s|
  {
    s[i := s[j]][j := s[i]]
  }

  /**
   An exchange moves exactly the two items, leaves every other position
   alone, and so keeps the multiset of items.
   */
  lemma SwapExchanges<T>(s: seq<T>, i: nat, j: nat)
    requires i < |s| && j < |s|
    ensures Swap(s, i, j)[i] == s[j] && Swap(s, i, j)[j] == s[i]
    ensures forall k :: 0 <= k < |s| && k != i && k != j ==> Swap(s, i, j)[k] == s[k]
    ensures multiset(Swap(s, i, j)) == multiset(s)
  {
  }

  /** Exchanging the same two positions twice restores the arrangement. */
  lemma SwapInvolution<T>(s: seq<T>, i: nat, j: nat)
    requires i < |s| && j < |s|
    ensures Swap(Swap(s, i, j), i, j) == s
  {
  }

  /** Exchanging a position with itself changes nothing. */
  lemma SwapSelf<T>(s: seq<T>, i: nat)
    requires i < |s|
    ensures Swap(s, i, i) == s
  {
  }

  /** Every pick the loop reads lies in `[0, i]`, as `Math.floor(Math.random() * (i + 1))` does. */
  predicate ValidPicks(picks: seq<int>, n: nat) {
    |picks| == n && forall i :: 0 < i < n ==> 0 <= picks[i] <= i
  }

  /**
   The shuffle loop from position `i` down to 1, as a recursive reference:
   exchange `i` with `picks[i]`, then carry on at `i - 1`.
   */
  function FisherYatesFrom<T>(a: seq<T>, picks: seq<int>, i: int): (r: seq<T>)
    requires ValidPicks(picks, |a|) && i < |a|
    ensures |r| == |a|
    decreases i
  {
    if i <= 0 then a
    else FisherYatesFrom(Swap(a, i, picks[i]), picks, i - 1)
  }

  /** The loop from `i` keeps the multiset and never touches the positions above `i`. */
  lemma {:induction false} FisherYatesFromPermutes<T>(a: seq<T>, picks: seq<int>, i: int)
    requires ValidPicks(picks, |a|) && i < |a|
    ensures multiset(FisherYatesFrom(a, picks, i)) == multiset(a)
    ensures forall k :: 0 <= k < |a| && k > i ==> FisherYatesFrom(a, picks, i)[k] == a[k]
    decreases i
  {
    if i > 0 {
      FisherYatesFromPermutes(Swap(a, i, picks[i]), picks, i - 1);
    }
  }

  /** The whole shuffle of `a`. */
  function FisherYates<T>(a: seq<T>, picks: seq<int>): (r: seq<T>)
    requires ValidPicks(picks, |a|)
    ensures |r| == |a| && multiset(r) == multiset(a)
  {
    FisherYatesFromPermutes(a, picks, |a| - 1);
    FisherYatesFrom(a, picks, |a| - 1)
  }

  /** The shuffle loop of `shuffle(array)`, run on a copy of the arrangement. */
  method ShuffleInPlace<T>(s: seq<T>, picks: seq<int>) returns (r: seq<T>)
    requires ValidPicks(picks, |s|)
    ensures |r| == |s|
    ensures multiset(r) == multiset(s)
    ensures r == FisherYates(s, picks)
  {
    r := s;
    var i := |s| - 1;
    while i > 0
      invariant -1 <= i < |s|
      invariant |r| == |s|
      invariant FisherYatesFrom(r, picks, i) == FisherYates(s, picks)
      decreases i
    {
      var j := picks[i];
      r := Swap(r, i, j);
      i := i - 1;
    }
  }

  /** The shuffle reads only the picks at positions `1..i`. */
  lemma {:induction false} FisherYatesFrame<T>(a: seq<T>, p: seq<int>, q: seq<int>, i: int)
    requires ValidPicks(p, |a|) && ValidPicks(q, |a|) && i < |a|
    requires forall k :: 0 < k <= i ==> p[k] == q[k]
    ensures FisherYatesFrom(a, p, i) == FisherYatesFrom(a, q, i)
    decreases i
  {
    if i > 0 {
      var b := Swap(a, i, p[i]);
      assert b == Swap(a, i, q[i]);
      FisherYatesFrame(b, p, q, i - 1);
      assert FisherYatesFrom(a, p, i) == FisherYatesFrom(b, p, i - 1);
      assert FisherYatesFrom(a, q, i) == FisherYatesFrom(b, q, i - 1);
    }
  }

  /** Exchanging two positions inside a prefix commutes with taking the prefix. */
  lemma SwapInPrefix<T>(a: seq<T>, i: nat, j: nat, n: nat)
    requires i < n && j < n && n <= |a|
    ensures Swap(a, i, j)[..n] == Swap(a[..n], i, j)
  {
  }

  /** Equal prefixes of length `n + 1` with equal last items have equal prefixes of length `n`. */
  lemma DropLastOfPrefix<T>(x: seq<T>, y: seq<T>, n: nat)
    requires n < |x| && n < |y| && x[n] == y[n]
    requires multiset(x[..n + 1]) == multiset(y[..n + 1])
    ensures multiset(x[..n]) == multiset(y[..n])
  {
    assert x[..n + 1] == x[..n] + [x[n]];
    assert y[..n + 1] == y[..n] + [y[n]];
    assert multiset(x[..n + 1]) == multiset(x[..n]) + multiset{x[n]};
    assert multiset(y[..n + 1]) == multiset(y[..n]) + multiset{y[n]};
    assert multiset(x[..n]) == multiset(x[..n + 1]) - multiset{x[n]};
    assert multiset(y[..n]) == multiset(y[..n + 1]) - multiset{y[n]};
  }

  /** Equal suffixes from `n + 1` with equal items at `n` are equal suffixes from `n`. */
  lemma ExtendSuffix<T>(x: seq<T>, y: seq<T>, n: nat)
    requires n < |x| && n < |y| && x[n] == y[n]
    requires x[n + 1..] == y[n + 1..]
    ensures x[n..] == y[n..]
  {
  }

  /**
   One step of the construction: some `j <= i` holds the item `t` wants at
   `i`, and exchanging it into place leaves a shorter prefix still to arrange.
   */
  lemma SwapIntoPlace<T>(a: seq<T>, t: seq<T>, i: nat) returns (j: nat)
    requires |a| == |t| && 0 < i < |a|
    requires multiset(a[..i + 1]) == multiset(t[..i + 1])
    requires a[i + 1..] == t[i + 1..]
    ensures j <= i
    ensures multiset(Swap(a, i, j)[..i]) == multiset(t[..i])
    ensures Swap(a, i, j)[i..] == t[i..]
  {
    assert t[..i + 1][i] == t[i];
    assert t[i] in multiset(a[..i + 1]);
    j :| 0 <= j <= i && a[..i + 1][j] == t[i];
    var b := Swap(a, i, j);
    SwapInPrefix(a, i, j, i + 1);
    assert b[i + 1..] == a[i + 1..];
    DropLastOfPrefix(b, t, i);
    ExtendSuffix(b, t, i);
  }

  /** A first item that agrees in multiset and an agreeing rest make equal arrangements. */
  lemma FirstPositionSettled<T>(a: seq<T>, t: seq<T>)
    requires |a| == |t| && 0 < |a|
    requires multiset(a[..1]) == multiset(t[..1])
    requires a[1..] == t[1..]
    ensures a == t
  {
    assert a[..1] == [a[0]] && t[..1] == [t[0]];
    assert a[0] in multiset(t[..1]);
    assert a == [a[0]] + a[1..] && t == [t[0]] + t[1..];
  }

  /**
   Every arrangement `t` of the items of `a` that already agrees with `a`
   from position `n` on is produced by the loop from `n - 1` for some picks.
   */
  lemma {:induction false} ReachFrom<T>(a: seq<T>, t: seq<T>, n: nat) returns (picks: seq<int>)
    requires |a| == |t| && n <= |a|
    requires multiset(a[..n]) == multiset(t[..n])
    requires a[n..] == t[n..]
    ensures ValidPicks(picks, |a|)
    ensures FisherYatesFrom(a, picks, n - 1) == t
    decreases n
  {
    if n == 0 {
      picks := seq(|a|, k => 0);
      assert a == a[0..] && t == t[0..];
    } else if n == 1 {
      picks := seq(|a|, k => 0);
      FirstPositionSettled(a, t);
    } else {
      var i := n - 1;
      var j := SwapIntoPlace(a, t, i);
      var b := Swap(a, i, j);
      var rest := ReachFrom(b, t, i);
      picks := rest[i := j];
      FisherYatesFrame(b, picks, rest, i - 1);
    }
  }

  /** The shuffle can produce every arrangement of the items it is given. */
  lemma ShuffleReachesEveryArrangement<T>(s: seq<T>, t: seq<T>) returns (picks: seq<int>)
    requires multiset(s) == multiset(t)
    ensures ValidPicks(picks, |s|)
    ensures FisherYates(s, picks) == t
  {
    assert |s| == |multiset(s)| == |multiset(t)| == |t|;
    assert s[..|s|] == s && t[..|t|] == t;
    picks := ReachFrom(s, t, |s|);
  }
}

=== FILE: sorting.dfy ===
/**
 The target arrangement of a game: `[...containers].sort()`, a sorted copy of
 the drawn colours under the default string order.

 The engine's own sort algorithm is not visible to the program; insertion sort
 stands in for it, and `SortedPermutationUnique` shows the choice does not
 matter: any two sorted arrangements of the same multiset are equal, so every
 correct sort produces the same target.
 */
module Sorting {
  import opened StringOrder

  predicate Sorted(s: seq<string>) {
    forall i, j :: 0 <= i < j < |s| ==> Le(s[i], s[j])
  }

  /** Places `x` in front of the first element it sorts before or with. */
  function Insert(x: string, s: seq<string>): (r: seq<string>)
    requires Sorted(s)
    ensures Sorted(r)
    ensures multiset(r) == multiset(s) + multiset{x}
    ensures |r| == |s| + 1
    decreases |s|
  {
    if |s| == 0 then [x]
    else if Le(x, s[0]) then
      assert forall y :: y in multiset(s) ==> Le(x, y) by {
        forall y | y in multiset(s) ensures Le(x, y) {
          HeadIsLeast(s, y);
          LeTransitive(x, s[0], y);
        }
      }
      PrependLeast(x, s);
      [x] + s
    else
      var rest := Insert(x, s[1..]);
      LeTotal(x, s[0]);
      PrependLeast(s[0], rest);
      assert s == [s[0]] + s[1..];
      [s[0]] + rest
  }

  /** Prepending an element that sorts before every element of a sorted sequence keeps it sorted. */
  lemma PrependLeast(x: string, s: seq<string>)
    requires Sorted(s)
    requires forall y :: y in multiset(s) ==> Le(x, y)
    ensures Sorted([x] + s)
  {
    forall i, j | 0 <= i < j < |[x] + s| ensures Le(([x] + s)[i], ([x] + s)[j]) {
      if i == 0 {
        assert s[j - 1] in multiset(s);
      }
    }
  }

  /** The sorted rearrangement of `s`. */
  function Sort(s: seq<string>): (r: seq<string>)
    ensures Sorted(r)
    ensures multiset(r) == multiset(s)
    ensures |r| == |s|
    decreases |s|
  {
    if |s| == 0 then []
    else
      assert s == [s[0]] + s[1..];
      Insert(s[0], Sort(s[1..]))
  }

  /** A sorted sequence starts with an element that sorts before every element of it. */
  lemma HeadIsLeast(s: seq<string>, x: string)
    requires Sorted(s) && x in multiset(s)
    ensures |s| > 0 && Le(s[0], x)
  {
    var k :| 0 <= k < |s| && s[k] == x;
    if k == 0 {
      LeReflexive(x);
    }
  }

  /** Two sorted arrangements of the same multiset are the same sequence. */
  lemma {:induction false} SortedPermutationUnique(a: seq<string>, b: seq<string>)
    requires Sorted(a) && Sorted(b)
    requires multiset(a) == multiset(b)
    ensures a == b
    decreases |a|
  {
    assert |a| == |multiset(a)| == |multiset(b)| == |b|;
    if |a| > 0 {
      assert a[0] in multiset(a);
      assert b[0] in multiset(b);
      HeadIsLeast(b, a[0]);
      HeadIsLeast(a, b[0]);
      LeAntisymmetric(a[0], b[0]);
      assert a == [a[0]] + a[1..];
      assert b == [b[0]] + b[1..];
      calc {
        multiset(a[1..]);
        multiset(a) - multiset{a[0]};
        multiset(b) - multiset{b[0]};
        multiset(b[1..]);
      }
      SortedPermutationUnique(a[1..], b[1..]);
    }
  }

  /** Sorting sees only the multiset: rearranging the input does not change the result. */
  lemma SortIgnoresArrangement(a: seq<string>, b: seq<string>)
    requires multiset(a) == multiset(b)
    ensures Sort(a) == Sort(b)
  {
    SortedPermutationUnique(Sort(a), Sort(b));
  }
}

=== FILE: string_order.dfy ===
/**
 The ordering JavaScript's `Array.prototype.sort` uses when it is called
 without a comparator: both operands are strings, compared code unit by code
 unit, and a proper prefix sorts before any longer string it begins.

 Dafny's `char` is compared by its numeric value, which coincides with the
 UTF-16 code unit order for every character of the Basic Multilingual Plane
 (and therefore for every palette colour name).
 */
module StringOrder {

  /** `a` sorts before or together with `b`. */
  predicate Le(a: string, b: string)
    decreases |a|
  {
    if |a| == 0 then true
    else if |b| == 0 then false
    else if a[0] != b[0] then a[0] < b[0]
    else Le(a[1..], b[1..])
  }

  lemma {:induction false} LeReflexive(a: string)
    ensures Le(a, a)
    decreases |a|
  {
    if |a| > 0 {
      LeReflexive(a[1..]);
    }
  }

  lemma {:induction false} LeAntisymmetric(a: string, b: string)
    requires Le(a, b) && Le(b, a)
    ensures a == b
    decreases |a|
  {
    if |a| > 0 {
      LeAntisymmetric(a[1..], b[1..]);
      assert a == [a[0]] + a[1..];
      assert b == [b[0]] + b[1..];
    }
  }

  lemma {:induction false} LeTransitive(a: string, b: string, c: string)
    requires Le(a, b) && Le(b, c)
    ensures Le(a, c)
    decreases |a|
  {
    if |a| > 0 && a[0] == b[0] && b[0] == c[0] {
      LeTransitive(a[1..], b[1..], c[1..]);
    }
  }

  lemma {:induction false} LeTotal(a: string, b: string)
    ensures Le(a, b) || Le(b, a)
    decreases |a|
  {
    if |a| > 0 && |b| > 0 && a[0] == b[0] {
      LeTotal(a[1..], b[1..]);
    }
  }

  /** `a` is `b` up to its own length. */
  predicate IsPrefix(a: string, b: string) {
    |a| <= |b| && a == b[..|a|]
  }

  /** At the first position where `a` and `b` differ, `a` has the smaller code unit. */
  predicate SmallerAtFirstDifference(a: string, b: string) {
    exists k :: 0 <= k < |a| && k < |b| && a[..k] == b[..k] && a[k] < b[k]
  }

  /**
   The comparison agrees with its textbook description: `a` sorts first
   exactly when it is a prefix of `b`, or when it holds the smaller code unit
   at the first position where the two differ.
   */
  lemma {:induction false} LeIsCodeUnitOrder(a: string, b: string)
    ensures Le(a, b) <==> IsPrefix(a, b) || SmallerAtFirstDifference(a, b)
    decreases |a|
  {
    if |a| == 0 {
      assert IsPrefix(a, b);
    } else if |b| == 0 {
      assert !IsPrefix(a, b);
    } else if a[0] != b[0] {
      DifferentHeads(a, b);
    } else {
      LeIsCodeUnitOrder(a[1..], b[1..]);
      EqualHeads(a, b);
    }
  }

  /** When the first characters differ, they alone decide both descriptions. */
  lemma DifferentHeads(a: string, b: string)
    requires |a| > 0 && |b| > 0 && a[0] != b[0]
    ensures !IsPrefix(a, b)
    ensures SmallerAtFirstDifference(a, b) <==> a[0] < b[0]
  {
  }

  /** When the first characters agree, both descriptions carry over to the tails. */
  lemma EqualHeads(a: string, b: string)
    requires |a| > 0 && |b| > 0 && a[0] == b[0]
    ensures IsPrefix(a, b) <==> IsPrefix(a[1..], b[1..])
    ensures SmallerAtFirstDifference(a, b) <==> SmallerAtFirstDifference(a[1..], b[1..])
  {
    var a', b' := a[1..], b[1..];
    assert a == [a[0]] + a' && b == [b[0]] + b';
    if IsPrefix(a', b') {
      assert b[..|a|] == [b[0]] + b'[..|a'|];
    }
    if IsPrefix(a, b) {
      assert b'[..|a'|] == b[..|a|][1..];
    }
    if SmallerAtFirstDifference(a', b') {
      var k :| 0 <= k < |a'| && k < |b'| && a'[..k] == b'[..k] && a'[k] < b'[k];
      assert a[..k + 1] == [a[0]] + a'[..k] && b[..k + 1] == [b[0]] + b'[..k];
      assert a[k + 1] == a'[k] && b[k + 1] == b'[k];
    }
    if SmallerAtFirstDifference(a, b) {
      var k :| 0 <= k < |a| && k < |b| && a[..k] == b[..k] && a[k] < b[k];
      assert k > 0;
      assert a'[..k - 1] == a[..k][1..] && b'[..k - 1] == b[..k][1..];
      assert a'[k - 1] == a[k] && b'[k - 1] == b[k];
    }
  }
}
